=== FILE: README.md ===
# Task mounts of a generic worker, modelled in Dafny

A worker runs tasks. Each task's payload can ask for three kinds of mount:

- a **writable directory cache**, named and reused by later tasks;
- a **read-only directory**, an archive unpacked into a task's home;
- a **file mount**, one downloaded file placed in a task's home.

Content comes from a task artifact or a plain URL.

The Go code decodes the mount list when a task is created. It does not raise errors at that point. Instead it keeps an error (the *payload error*) and reports it when that task starts. A type error in a recognised mount is kept only if no error is stored yet, but an unreadable mount, an unrecognised mount and a content that fails to decode during the scope computation each overwrite whatever was stored. It also works out the scopes a task needs. At start it mounts every entry in order; at stop it unmounts them in the same order. Both stop at the first failure.

Downloads go into a worker-wide download cache, keyed by a content key. The directories of writable caches are moved into a caches directory between tasks and moved back for the next task that names the same cache.

The model has these parts:

- `Json`: the JSON values the decoder inspects. This covers Go's `m[k] != nil` test and decoding into string fields.
- `Content`: content sources, with their scopes and cache keys, and the decoding of a content's raw JSON.
- `Entries`: the three mount kinds. Each has its own scopes and its content. This part also decides which kind a raw mount is.
- `FileSystem`: an abstract path→node tree, with `Rename` and `MkdirAll` as map updates.
- `Mounting`: the worker-wide state as a class, `Worker`. It holds:
  - the filesystem;
  - `fileCaches` (content key → downloaded file);
  - `directoryCaches` (cache name → directory).

  It also carries the ensureCached/extract/mountFile helpers and each kind's Mount and Unmount. Two ghost logs record every download and every Mount/Unmount call. Each logged call holds the worker's state (`WState`) just before and just after it, so a whole Start or Stop can be read as a chain of steps, each doing what its kind promises.
- `TaskMounts`: the per-task feature as a class, `TaskMount`. It covers decoding the payload, computing the required scopes, and Start/Stop.

Failures that come from outside the code are chosen nondeterministically: a download, a rename, a directory creation, or an archive library's own errors. The model therefore proves its properties for every way such calls can fail.

## Model

| member | source | states |
|---|---|---|
| Content.RequiredScopes | mounts.go:100-111 | A URL or a `public/` artifact needs no scope. Any other artifact needs exactly one scope, `queue:get-artifact:` followed by the artifact name. |
| Content.UniqueKey | mounts.go:415-417 | An artifact key starts with `artifact:`. A URL key is `urlcontent:` followed by the URL itself. |
| Content.ScopeKindsDisjoint | mounts.go:214-218 | An artifact scope is never equal to a cache scope, so one kind of scope cannot grant the other. |
| Content.ArtifactScopeInjective | mounts.go:105-111 | Two artifacts with the same get-artifact scope are the same artifact. |
| Content.UniqueKeyInjective | mounts.go:94-97 | Two contents share a cache key only if they are the same content, provided task ids contain no `:`. |
| Content.ColonInTaskIdCollides | mounts.go:415-417 | Without that proviso, two different artifacts get the same key. |
| Content.DecodeContent | mounts.go:377-400 | Absent content cannot be read. Decoding succeeds only on a JSON object. |
| Content.DecodeContentSucceeds | mounts.go:377-400 | Decoding succeeds exactly in two cases. (1) `artifact` is present and a string, and `taskId` is absent or a string. (2) `artifact` is absent, and `url` is present and a string. A success is artifact content exactly when `artifact` is present, so `artifact` wins over `url`. The decoded `artifact`, `taskId` and `url` are the JSON strings, with an absent or null `taskId` read as "". |
| Content.DecodeContentErrors | mounts.go:382-392 | Which error a failure gives. A non-object is unreadable. An object, or null, without `artifact` or `url` is unrecognised. Every other failure is a field type error. |
| Json.ObjectOf | mounts.go:131-132 | Reading a value into a map fails exactly on strings and other non-objects. Null gives the empty map. |
| Json.PresentAfterUnmarshal | mounts.go:131-141 | Go's `m[k] != nil` after reading a value into a map holds exactly when the value is an object whose key holds something other than null. JSON null reads as a map with no keys. |
| Json.StringField | mounts.go:155 | A string field that is absent or null stays "". A string is taken. Any other value is a type error. |
| Entries.EntryScopes | mounts.go:214-246 | Only a writable cache needs a scope of its own, and that scope is its cache scope. |
| Entries.EntryContent | mounts.go:220-252 | A writable cache without content has no content and no error. Every other entry's content is its decoded content, or that decoding's error. |
| Entries.AllScopes | mounts.go:172-182 | The scopes of one entry are exactly its own scopes plus those of its content. |
| Entries.ContentField | mounts.go:224 | The `content` raw message is present exactly when the key is there, even when it holds null. |
| Entries.DecodeFields | mounts.go:152-158 | Decoding into the struct of a kind gives that kind with the object's `content`. There is no error exactly when every string field of the kind is absent, null or a string. Without an error, each string field of the kind (`cacheName`, `directory`, `format` or `file`) holds its string. |
| Entries.DecodeEntry | mounts.go:131-145 | Non-objects cannot be read. Otherwise `cacheName` is checked first, then `directory`, then `file`. The first key present picks the kind, and no key present means unrecognised. |
| FileSystem.Join | mounts.go:302 | A joined path is the directory, a separator, then the name. |
| FileSystem.Dirname | mounts.go:340 | The parent is everything before the last separator, or "." when there is no separator. |
| FileSystem.DirnameOfJoin | mounts.go:300-302 | The parent of a joined path is the directory it was joined to. |
| FileSystem.Moved | mounts.go:258 | A rename puts the source node at the destination and removes the source. Every other path is unchanged. |
| FileSystem.Mkdir | mounts.go:277 | Making a directory keeps an existing directory as it is, or adds an empty one. Every other path is unchanged. |
| FileSystem.MovedBack | mounts.go:313-320 | Moving a node to a vacant path and back restores the tree exactly. |
| FileSystem.FreshNameExists | mounts.go:301-302 | A slug that avoids every path in use always exists. |
| Mounting.Worker.constructor | mounts.go:27-31 | Both caches start empty, and the download cache's invariant holds. |
| Mounting.Worker.NewSlug | mounts.go:301 | The new basename has no separator, and its path under the directory is not in use. |
| Mounting.Worker.Rename | mounts.go:258 | On success the tree is the moved tree. On failure it is unchanged. A missing source or an empty destination always fails. |
| Mounting.Worker.MkdirAll | mounts.go:277 | On success the directory exists. On failure nothing changes. A file in the way always fails. |
| Mounting.Worker.Download | mounts.go:402-426 | Every call is logged once with its outcome. On success there is a new file under the downloads directory, at a path not in use. On failure the tree is unchanged. |
| Mounting.Worker.EnsureCached | mounts.go:322-333 | A hit returns the recorded file with no download. A miss downloads once and records the key only if that succeeded. A failed download leaves no entry. Valid is kept: no key is ever downloaded successfully twice. |
| Mounting.Worker.Extract | mounts.go:352-373 | The content is cached first, and a failed download changes nothing else. Then the directory is made and the archive unpacked. After caching, only the target changes, and a success unpacks the cached archive file found in the tree. An unknown format is reported only once the directory exists. Conversely, once the archive is cached and the directory made, an unknown format is always reported as unsupported, the distinguished `log.Fatalf` outcome. |
| Mounting.Worker.MountFile | mounts.go:335-350 | The content is cached first, and a failed download changes nothing else. Then the cached file is moved, not copied, to the target after its parent directory is made. A later failure changes only that parent. The directory cache is not touched. |
| Mounting.Worker.Unpack | mounts.go:357-372 | Only the target changes. Success means a known format and the archive, a file, unpacked into the target. Once the directory is made, an unknown format is reported as unsupported, and only then is that error given. |
| Mounting.Worker.MoveInto | mounts.go:340-349 | On success the parent was made and the file moved into place. A failure changes only the parent. |
| Mounting.Worker.MountWritableCache | mounts.go:254-282 | A known cache name moves its directory into place. Otherwise the content is extracted there, or else an empty directory is made. The directory cache is not touched. |
| Mounting.Worker.MountReadOnlyDirectory | mounts.go:284-290 | A content error is returned with nothing changed. Otherwise this is extract into the target. |
| Mounting.Worker.MountFileEntry | mounts.go:292-298 | A content error is returned with nothing changed. Otherwise this is mountFile to the target. |
| Mounting.Worker.UnmountWritableCache | mounts.go:300-306 | A fresh slot under the caches directory is recorded for the name even if the move fails. On success the directory was moved there. |
| Mounting.Worker.UnmountReadOnlyDirectory | mounts.go:308-311 | Always succeeds and changes nothing. |
| Mounting.Worker.UnmountFileEntry | mounts.go:313-320 | The file is moved back to the cached path of its content. An unrecorded key gives an empty destination, and the move fails. |
| Mounting.Worker.Mount | mounts.go:76-78 | Keeps Valid, and no recorded download is lost or re-fetched. Each kind does what its own Mount promises: a writable cache as CacheMounted, a read-only directory as DirectoryMounted, a file mount as FileMounted. Each of these fixes the new state exactly, except after a failure past the cache step: then only the target directory, or the file's parent directory, may differ from the tree after caching. The directory cache never changes. The call is logged with the states before and after it. |
| Mounting.Worker.Unmount | mounts.go:76-78 | Keeps Valid; the download cache never changes. A writable cache records a fresh slot and moves its directory there, as CacheUnmounted. A read-only directory succeeds with nothing changed. A file mount moves the file back, leaving both caches as they were, as FileUnmounted. The call is logged with the states before and after it. |
| Mounting.FileMountRoundTrip | mounts.go:335-350 | Unmounting a mounted file returns it to the cache path. The tree is then as it was once the parent was made. |
| TaskMounts.DecodeStep | mounts.go:125-146 | After an early return nothing changes. At most one entry is kept per mount, and none once an error is stored. |
| TaskMounts.DecodeMounts | mounts.go:120-149 | At most one entry is kept per mount. An early return always leaves an error. |
| TaskMounts.DecodeErrorSticks | mounts.go:153-157 | Once stored, an error stays stored and no later entry is kept. After an early return nothing changes. |
| TaskMounts.DecodedMountsInOrder | mounts.go:125-158 | The kept entries are the decoded mounts of a prefix of the payload, in order. Only the last one can carry an error. |
| TaskMounts.DecodeCleanPrefix | mounts.go:125-158 | No error is stored exactly when every mount is recognised and well typed. Then every mount is kept. |
| TaskMounts.MistypedMountKept | mounts.go:152-158 | After a clean prefix, a recognised mount whose own fields fail to decode is still appended, as the last kept entry, and an error is stored. |
| TaskMounts.Aggregate | mounts.go:170-185 | The reference walk of the scope computation: each entry's own scopes, then its content's, in mount order, stopping at the first content error. At most two scopes per entry, each a get-artifact or a cache scope. |
| TaskMounts.AggregateError | mounts.go:170-185 | Computing the scopes fails exactly when some entry's content fails. The error is that of the first such entry. |
| TaskMounts.AggregateScopesExact | mounts.go:170-185 | Without an error, a scope is required exactly when some entry needs it. |
| TaskMounts.EveryCacheAndPrivateArtifactScoped | mounts.go:170-185 | Without an error, every writable cache's scope and every non-public artifact's scope is required. |
| TaskMounts.StoppedAtFirstFailure | mounts.go:188-212 | A run that succeeded on the first k entries in order and then failed on the next ran in order and stopped there, with that error. |
| TaskMounts.GatherScopes | mounts.go:171-183 | The scope loop returns the first content error. Without one, it returns exactly the aggregated scopes. |
| TaskMounts.TaskMount.constructor | mounts.go:120-149 | The kept mounts are those of the decoding. An unreadable mount returns before the scopes are computed. Otherwise a content error replaces the payload error, and without one the scopes are set. |
| TaskMounts.TaskMount.Unmarshal | mounts.go:152-158 | With no stored error, the entry is kept and its decoding error stored. With one, nothing changes. |
| TaskMounts.TaskMount.InitRequiredScopes | mounts.go:170-185 | A content error replaces the payload error and leaves the scopes unset. Otherwise the scopes become the aggregated scopes. |
| TaskMounts.TaskMount.Start | mounts.go:188-200 | A stored payload error is returned with no call made and the state unchanged. Otherwise entries are mounted in order, stopping at the first failure. The logged calls chain from the state before Start to the state after it, and each did what Mount promises for its kind. No recorded download is lost, and the directory cache is not touched. |
| TaskMounts.TaskMount.Stop | mounts.go:203-212 | Entries are unmounted in order, stopping at the first failure, whatever the payload error. The logged calls chain from the state before Stop to the state after it, and each did what Unmount promises for its kind. The download cache is unchanged. |

## Left out

- HTTP downloads, signed artifact URLs and retries (mounts.go:405-413, 433-455) are not modelled. A download is a call that either succeeds or fails; a success leaves a file that stands for the content's key.
- Archive unpacking (mounts.go:362-369) is not modelled in detail. A successful unpack replaces the target with a directory that records the archive and the format, and any unpack may fail.
- Extract: `log.Fatalf` on an unknown format ends the process. Here it is returned as the distinguished error `UnsupportedFormat`; the process exit itself is not modelled.
- `Initialise`, `ensureEmptyDir` and `IsEnabled` (mounts.go:38-62, 115-117) are not modelled: they are start-up housekeeping outside the mount logic.
- `TaskMount.RequiredScopes` (mounts.go:164-166) only reads a field. The model reads `requiredScopes` directly.
- File permissions (0600, 0777) are not modelled.
- A download that fails partway can leave a partial file behind. The model leaves the tree unchanged on failure.
- FileSystem.Dirname: `filepath.Dir` also cleans the path. The model only cuts at the last separator, and `Join` does not clean.
- A node stands for a whole file or directory tree. Paths below a moved directory are not tracked one by one.
- Json.StringField: Go's case-insensitive matching of JSON keys to struct fields is not modelled. Keys must match exactly.
- The two Go maps are package-level globals with no locking. The model keeps them in one worker object and does not model the interleavings if features of several tasks ever ran at once.
- Logging calls (mounts.go:304, 318, 434) are left out.
- Task runs and task users are not modelled beyond the home directory. `TaskUser.HomeDir` and `config.CachesDir`/`config.DownloadsDir` are the worker's fields `homeDir`, `cachesDir` and `downloadsDir`.
- Error messages are not modelled. An error is a constructor naming its cause.

=== FILE: content.dfy ===
/**
 * Content sources: a task artifact or a plain URL.  Each knows the scopes a
 * task needs to fetch it and the key its download is cached under.
 */
module Content {
  import opened Wrappers
  import opened Json
  import opened Errors

  datatype FSContent =
    | ArtifactContent(taskId: string, artifact: string)
    | URLContent(url: string)

  const PublicPrefix := "public/"
  const ArtifactScopePrefix := "queue:get-artifact:"
  const CacheScopePrefix := "generic-worker:cache:"

  predicate IsPublic(artifact: string) {
    PublicPrefix <= artifact
  }

  /** The scope that lets a task read a (non-public) artifact. */
  function ArtifactScope(artifact: string): (s: string)
    ensures ArtifactScopePrefix <= s && s[|ArtifactScopePrefix|..] == artifact
  {
    ArtifactScopePrefix + artifact
  }

  /** The scope that lets a task use a named writable cache. */
  function CacheScope(cacheName: string): (s: string)
    ensures CacheScopePrefix <= s && s[|CacheScopePrefix|..] == cacheName
  {
    CacheScopePrefix + cacheName
  }

  /**
   * Scopes needed to fetch the content: none for URLs or public artifacts,
   * the artifact's own get-artifact scope otherwise.
   */
  function RequiredScopes(c: FSContent): (r: seq<string>)
    ensures |r| <= 1
    ensures r == [] <==> c.URLContent? || IsPublic(c.artifact)
    ensures r != [] ==> c.ArtifactContent? && r[0] == ArtifactScope(c.artifact)
  {
    match c
    case URLContent(_) => []
    case ArtifactContent(_, artifact) =>
      if IsPublic(artifact) then [] else [ArtifactScope(artifact)]
  }

  /** The download-cache key of the content. */
  function UniqueKey(c: FSContent): (k: string)
    ensures c.ArtifactContent? ==> "artifact:" <= k && k[0] == 'a'
    ensures c.URLContent? ==> "urlcontent:" <= k && k[0] == 'u' && k[|"urlcontent:"|..] == c.url
  {
    match c
    case ArtifactContent(taskId, artifact) => "artifact:" + taskId + ":" + artifact
    case URLContent(url) => "urlcontent:" + url
  }

  /** Scopes that grant artifact access never grant cache access, and back. */
  lemma ScopeKindsDisjoint(artifact: string, cacheName: string)
    ensures ArtifactScope(artifact) != CacheScope(cacheName)
  {
    assert ArtifactScope(artifact)[0] == 'q';
    assert CacheScope(cacheName)[0] == 'g';
  }

  /** Different non-public artifacts need different scopes. */
  lemma ArtifactScopeInjective(a1: string, a2: string)
    requires ArtifactScope(a1) == ArtifactScope(a2)
    ensures a1 == a2
  {
    assert a1 == ArtifactScope(a1)[|ArtifactScopePrefix|..];
  }

  /**
   * Two contents share a cache key only when they are the same content.  For
   * artifacts this relies on task ids never containing ':', which holds of
   * the slug ids task ids are.
   */
  lemma UniqueKeyInjective(c1: FSContent, c2: FSContent)
    requires c1.ArtifactContent? ==> ':' !in c1.taskId
    requires c2.ArtifactContent? ==> ':' !in c2.taskId
    requires UniqueKey(c1) == UniqueKey(c2)
    ensures c1 == c2
  {
    var k := UniqueKey(c1);
    if c1.ArtifactContent? && c2.ArtifactContent? {
      var t1, t2 := c1.taskId, c2.taskId;
      assert k == "artifact:" + t1 + ":" + c1.artifact;
      assert k == "artifact:" + t2 + ":" + c2.artifact;
      FirstColonAfterTaskId(t1, c1.artifact);
      FirstColonAfterTaskId(t2, c2.artifact);
      assert |t1| == |t2|;
      assert t1 == k[9..9 + |t1|] == t2;
      assert c1.artifact == k[10 + |t1|..] == c2.artifact;
    } else if c1.URLContent? && c2.URLContent? {
      assert c1.url == k[|"urlcontent:"|..] == c2.url;
    }
  }

  /** In an artifact key, the first ':' after the "artifact:" prefix ends the taskId. */
  lemma FirstColonAfterTaskId(taskId: string, artifact: string)
    requires ':' !in taskId
    ensures var k := UniqueKey(ArtifactContent(taskId, artifact));
      && k[9 + |taskId|] == ':'
      && forall j :: 9 <= j < 9 + |taskId| ==> k[j] != ':'
  {
    var k := UniqueKey(ArtifactContent(taskId, artifact));
    assert forall j :: 9 <= j < 9 + |taskId| ==> k[j] == taskId[j - 9];
  }

  /** Without that restriction two artifacts can collide on one key. */
  lemma ColonInTaskIdCollides()
    ensures UniqueKey(ArtifactContent("a:b", "c")) == UniqueKey(ArtifactContent("a", "b:c"))
  {
    assert "artifact:" + "a:b" + ":" + "c" == "artifact:" + "a" + ":" + "b:c";
  }

  /**
   * Content.FSContent: the content raw message is absent (None) or a JSON
   * value; it must read as an object, and is an artifact when `artifact` is
   * present, else a URL when `url` is present, else unrecognised.
   */
  function DecodeContent(raw: Option<Json>): (r: Result<FSContent, Error>)
    ensures raw.None? ==> r == Failure(UnreadableContent)
    ensures r.Success? ==> raw.Some? && raw.value.Obj?
  {
    if raw.None? then Failure(UnreadableContent)
    else match ObjectOf(raw.value)
      case None => Failure(UnreadableContent)
      case Some(m) =>
        if Present(m, "artifact") then
          var artifact := StringField(m, "artifact");
          var taskId := StringField(m, "taskId");
          if artifact.Some? && taskId.Some? then Success(ArtifactContent(taskId.value, artifact.value))
          else Failure(FieldTypeMismatch)
        else if Present(m, "url") then
          var url := StringField(m, "url");
          if url.Some? then Success(URLContent(url.value)) else Failure(FieldTypeMismatch)
        else Failure(UnrecognisedContent)
  }

  /**
   * Decoding succeeds exactly when one of the two keys is present and well
   * typed; `artifact` wins over `url`, and the fields are the JSON strings.
   */
  lemma DecodeContentSucceeds(raw: Option<Json>)
    ensures DecodeContent(raw).Success? <==>
      raw.Some? && raw.value.Obj? &&
      var m := raw.value.fields;
      (Present(m, "artifact") && m["artifact"].Str? && StringField(m, "taskId").Some?) ||
      (!Present(m, "artifact") && Present(m, "url") && m["url"].Str?)
    ensures DecodeContent(raw).Success? ==>
      (DecodeContent(raw).value.ArtifactContent? <==> Present(raw.value.fields, "artifact"))
    ensures DecodeContent(raw).Success? && DecodeContent(raw).value.ArtifactContent? ==>
      DecodeContent(raw).value.artifact == raw.value.fields["artifact"].s
    ensures DecodeContent(raw).Success? && DecodeContent(raw).value.ArtifactContent? ==>
      Some(DecodeContent(raw).value.taskId) == StringField(raw.value.fields, "taskId")
    ensures DecodeContent(raw).Success? && DecodeContent(raw).value.URLContent? ==>
      DecodeContent(raw).value.url == raw.value.fields["url"].s
  {
  }

  /**
   * Which error a failed decoding reports: unreadable when the message is
   * absent or not an object (JSON null reads as an empty object),
   * unrecognised when neither key is present, a type mismatch otherwise.
   */
  lemma DecodeContentErrors(raw: Option<Json>)
    ensures DecodeContent(raw) == Failure(UnreadableContent) <==>
      raw.None? || raw.value.Str? || raw.value.Other?
    ensures DecodeContent(raw) == Failure(UnrecognisedContent) <==>
      raw.Some? && (raw.value.Null? ||
                    (raw.value.Obj? && !Present(raw.value.fields, "artifact") && !Present(raw.value.fields, "url")))
    ensures DecodeContent(raw).Failure? ==>
      DecodeContent(raw).error in {UnreadableContent, UnrecognisedContent, FieldTypeMismatch}
  {
  }
}

=== FILE: entries.dfy ===
/**
 * The three kinds of mount entry a task payload can declare, how one is
 * recognised from its keys, and what it requires and refers to.
 */
module Entries {
  import opened Wrappers
  import opened Json
  import opened Errors
  import opened Content

  /**
   * `content` is the raw content message: None when the mount object has no
   * `content` key.  Paths are relative to a task user's home.
   */
  datatype MountEntry =
    | WritableDirectoryCache(cacheName: string, directory: string, content: Option<Json>, format: string)
    | ReadOnlyDirectory(directory: string, content: Option<Json>, format: string)
    | FileMount(file: string, content: Option<Json>)

  /** The scopes the entry itself requires, apart from its content's. */
  function EntryScopes(e: MountEntry): (r: seq<string>)
    ensures e.WritableDirectoryCache? <==> r != []
    ensures e.WritableDirectoryCache? ==> r == [CacheScope(e.cacheName)]
  {
    match e
    case WritableDirectoryCache(name, _, _, _) => [CacheScope(name)]
    case ReadOnlyDirectory(_, _, _) => []
    case FileMount(_, _) => []
  }

  /**
   * The entry's content source: a writable cache without content has none;
   * the other two kinds always decode their content, so a missing one fails.
   */
  function EntryContent(e: MountEntry): (r: Result<Option<FSContent>, Error>)
    ensures r.Success? && r.value.None? <==> e.WritableDirectoryCache? && e.content.None?
    ensures r.Success? && r.value.Some? <==> DecodeContent(e.content).Success? &&
                                             (e.WritableDirectoryCache? ==> e.content.Some?)
    ensures r.Success? && r.value.Some? ==> r.value.value == DecodeContent(e.content).value
    ensures r.Failure? ==> r.error == DecodeContent(e.content).error
  {
    if e.WritableDirectoryCache? && e.content.None? then Success(None)
    else match DecodeContent(e.content)
      case Success(c) => Success(Some(c))
      case Failure(err) => Failure(err)
  }

  /** Every scope the entry needs: its own, then its content's, if it has any. */
  function AllScopes(e: MountEntry): (r: seq<string>)
    requires EntryContent(e).Success?
    ensures forall s :: s in r <==>
      s in EntryScopes(e) ||
      (EntryContent(e).value.Some? && s in RequiredScopes(EntryContent(e).value.value))
  {
    EntryScopes(e) + ContentScopes(EntryContent(e).value)
  }

  /** The scopes a decoded content source needs; none when there is no content. */
  function ContentScopes(c: Option<FSContent>): (r: seq<string>)
    ensures c.None? ==> r == []
    ensures c.Some? ==> r == RequiredScopes(c.value)
  {
    if c.Some? then RequiredScopes(c.value) else []
  }

  /**
   * The raw `content` message of a mount object.  A raw message keeps the
   * bytes it is given, so an explicit JSON null is present (and later fails
   * to decode as content); only a missing key leaves it nil.
   */
  function ContentField(m: map<string, Json>): (r: Option<Json>)
    ensures r.Some? <==> "content" in m
    ensures r.Some? ==> r.value == m["content"]
  {
    if "content" in m then Some(m["content"]) else None
  }

  /** What decoding one raw mount gives. */
  datatype EntryDecoding =
    | NotAnObject
    | Unrecognised
      /** An entry of a recognised kind; `error` is set when one of its fields
          had the wrong type, and the entry then holds "" for that field. */
    | Recognised(entry: MountEntry, error: Option<Error>)

  /** json.Unmarshal of the mount object into the struct of its kind. */
  function DecodeFields(m: map<string, Json>, kind: string): (r: (MountEntry, Option<Error>))
    requires kind in {"cacheName", "directory", "file"}
    ensures kind == "cacheName" <==> r.0.WritableDirectoryCache?
    ensures kind == "directory" <==> r.0.ReadOnlyDirectory?
    ensures kind == "file" <==> r.0.FileMount?
    ensures r.0.content == ContentField(m)
    ensures r.1.Some? ==> r.1 == Some(FieldTypeMismatch)
    ensures r.1.None? <==>
      (forall key :: key in FieldsOf(kind) ==> StringField(m, key).Some?)
    ensures r.1.None? && r.0.WritableDirectoryCache? ==>
      && Some(r.0.cacheName) == StringField(m, "cacheName") && Some(r.0.directory) == StringField(m, "directory")
      && Some(r.0.format) == StringField(m, "format")
    ensures r.1.None? && r.0.ReadOnlyDirectory? ==>
      Some(r.0.directory) == StringField(m, "directory") && Some(r.0.format) == StringField(m, "format")
    ensures r.1.None? && r.0.FileMount? ==> Some(r.0.file) == StringField(m, "file")
  {
    var content := ContentField(m);
    var directory := StringField(m, "directory");
    var format := StringField(m, "format");
    if kind == "cacheName" then
      var name := StringField(m, "cacheName");
      (WritableDirectoryCache(name.GetOr(""), directory.GetOr(""), content, format.GetOr("")),
       if name.Some? && directory.Some? && format.Some? then None else Some(FieldTypeMismatch))
    else if kind == "directory" then
      (ReadOnlyDirectory(directory.GetOr(""), content, format.GetOr("")),
       if directory.Some? && format.Some? then None else Some(FieldTypeMismatch))
    else
      var file := StringField(m, "file");
      (FileMount(file.GetOr(""), content), if file.Some? then None else Some(FieldTypeMismatch))
  }

  /** The string fields of each kind's struct. */
  function FieldsOf(kind: string): set<string> {
    if kind == "cacheName" then {"cacheName", "directory", "format"}
    else if kind == "directory" then {"directory", "format"}
    else {"file"}
  }

  /**
   * The switch in NewTaskFeature: a mount that is not an object cannot be
   * read; otherwise `cacheName` is checked first, then `directory`, then
   * `file`, and the first present key picks the kind.
   */
  function DecodeEntry(raw: Json): (r: EntryDecoding)
    ensures r.NotAnObject? <==> ObjectOf(raw).None?
    ensures ObjectOf(raw).Some? ==>
      var m := ObjectOf(raw).value;
      && (r.Unrecognised? <==> !Present(m, "cacheName") && !Present(m, "directory") && !Present(m, "file"))
      && (r.Recognised? && r.entry.WritableDirectoryCache? <==> Present(m, "cacheName"))
      && (r.Recognised? && r.entry.ReadOnlyDirectory? <==> !Present(m, "cacheName") && Present(m, "directory"))
      && (r.Recognised? && r.entry.FileMount? <==>
            !Present(m, "cacheName") && !Present(m, "directory") && Present(m, "file"))
  {
    match ObjectOf(raw)
    case None => NotAnObject
    case Some(m) =>
      if Present(m, "cacheName") then var (e, err) := DecodeFields(m, "cacheName"); Recognised(e, err)
      else if Present(m, "directory") then var (e, err) := DecodeFields(m, "directory"); Recognised(e, err)
      else if Present(m, "file") then var (e, err) := DecodeFields(m, "file"); Recognised(e, err)
      else Unrecognised
  }
}

=== FILE: errors.dfy ===
/** The errors the mount code returns, one constructor per distinct cause. */
module Errors {

  datatype Error =
    | UnreadableMount(index: nat)          // a mount entry that is not a JSON object
    | UnrecognisedMount                    // none of cacheName, directory, file
    | FieldTypeMismatch                    // json.Unmarshal into a struct met a wrongly typed field
    | UnreadableContent                    // content missing, or not a JSON object
    | UnrecognisedContent                  // content with neither artifact nor url
    | NoFSContent(cause: Error)            // "Not able to retrieve FSContent"
    | DownloadFailed(key: string)          // fetch or signed-URL failure
    | MkdirFailed(path: string)
    | RenameFailed(src: string, dst: string)
    | ExtractFailed(archive: string, dir: string)
    | UnsupportedFormat(format: string)    // log.Fatalf: ends the worker process
}

=== FILE: filesystem.dfy ===
/**
 * The filesystem the mounts act on, abstracted to a map from path to node.
 * A node stands for a whole file or a whole directory tree, so moving a
 * path moves everything below it at once.
 */
module FileSystem {

  type Path = string

  /** What a directory holds: nothing yet, or an unpacked archive. */
  datatype Listing = Empty | Unpacked(archive: string, format: string)

  /** A file carries the identity of the content it was downloaded from. */
  datatype Node = File(data: string) | Dir(listing: Listing)

  type FileSystem = map<Path, Node>

  /** filepath.Join, taken as plain concatenation with a separator. */
  function Join(dir: Path, name: string): (p: Path)
    ensures |p| == |dir| + 1 + |name|
    ensures p[..|dir|] == dir && p[|dir|] == '/' && p[|dir| + 1..] == name
  {
    dir + "/" + name
  }

  /** Index of the last separator in `p`, or -1 when there is none. */
  function LastSlash(p: Path): (i: int)
    ensures -1 <= i < |p|
    ensures i >= 0 ==> p[i] == '/'
    ensures forall j :: i < j < |p| ==> p[j] != '/'
  {
    if |p| == 0 then -1
    else if p[|p| - 1] == '/' then |p| - 1
    else LastSlash(p[..|p| - 1])
  }

  /** filepath.Dir without the cleaning: everything before the last separator. */
  function Dirname(p: Path): (d: Path)
    ensures LastSlash(p) >= 0 ==> |d| < |p| && d == p[..LastSlash(p)]
    ensures LastSlash(p) < 0 ==> d == "."
  {
    var i := LastSlash(p);
    if i < 0 then "." else p[..i]
  }

  /** The parent of a joined path is the directory it was joined to. */
  lemma DirnameOfJoin(dir: Path, name: string)
    requires '/' !in name
    ensures Dirname(Join(dir, name)) == dir
  {
    var p := Join(dir, name);
    assert p[|dir|] == '/';
    assert forall j :: |dir| < j < |p| ==> p[j] == name[j - |dir| - 1];
  }

  /** os.Rename on the abstract tree: the node at `src` now lives at `dst`. */
  function Moved(fs: FileSystem, src: Path, dst: Path): (r: FileSystem)
    requires src in fs
    ensures dst in r && r[dst] == fs[src]
    ensures src != dst ==> src !in r
    ensures forall p :: p != src && p != dst ==> (p in r <==> p in fs) && (p in r ==> r[p] == fs[p])
  {
    (fs - {src})[dst := fs[src]]
  }

  /** os.MkdirAll on the abstract tree, when it succeeds. */
  function Mkdir(fs: FileSystem, dir: Path): (r: FileSystem)
    requires dir in fs ==> fs[dir].Dir?
    ensures dir in r && r[dir].Dir?
    ensures dir in fs ==> r == fs
    ensures dir !in fs ==> r[dir] == Dir(Empty)
    ensures forall p :: p != dir ==> (p in r <==> p in fs) && (p in r ==> r[p] == fs[p])
  {
    if dir in fs then fs else fs[dir := Dir(Empty)]
  }

  /** Moving a node out to a vacant path and back restores the tree exactly. */
  lemma MovedBack(fs: FileSystem, src: Path, dst: Path)
    requires src in fs && dst !in fs
    ensures Moved(Moved(fs, src, dst), dst, src) == fs
  {
    var back := Moved(Moved(fs, src, dst), dst, src);
    assert back.Keys == fs.Keys;
  }

  /** Every path outside `changed` is the same in both trees. */
  ghost predicate ChangedOnlyAt(before: FileSystem, after: FileSystem, changed: set<Path>) {
    forall p :: p !in changed ==> (p in before <==> p in after) && (p in before ==> before[p] == after[p])
  }

  /** A name that, joined to `dir`, is longer than every path in `used`. */
  lemma {:induction false} FreshNameExists(dir: Path, used: set<Path>)
    ensures exists name: string :: '/' !in name && Join(dir, name) !in used
  {
    var n := LongerThanAll(used);
    var name := seq(n, _ => 'x');
    assert '/' !in name && Join(dir, name) !in used;
  }

  lemma {:induction false} LongerThanAll(s: set<Path>) returns (n: nat)
    ensures forall p :: p in s ==> |p| < n
  {
    if s == {} {
      n := 0;
    } else {
      var x :| x in s;
      var m := LongerThanAll(s - {x});
      n := if |x| < m then m else |x| + 1;
    }
  }
}

=== FILE: json.dfy ===
/**
 * A decoded JSON value, reduced to what the mount code looks at: which keys
 * an object has, and whether a field holds a string.  Numbers, booleans and
 * arrays are all `Other`.
 */
module Json {
  import opened Wrappers

  datatype Json = Null | Str(s: string) | Other | Obj(fields: map<string, Json>)

  /**
   * json.Unmarshal of a value into a map[string]interface{}: an object gives
   * its fields, `null` gives the nil map, anything else fails.
   */
  function ObjectOf(j: Json): (r: Option<map<string, Json>>)
    ensures r.None? <==> j.Str? || j.Other?
    ensures j.Obj? ==> r == Some(j.fields)
    ensures j.Null? ==> r == Some(map[])
  {
    match j
    case Obj(fields) => Some(fields)
    case Null => Some(map[])
    case _ => None
  }

  /** `m[key] != nil` in Go: the key is there and does not hold JSON null. */
  predicate Present(m: map<string, Json>, key: string) {
    key in m && m[key] != Null
  }

  /**
   * After reading a value into a map, `m[key] != nil` holds exactly when the
   * value was an object whose `key` holds something other than null: a
   * null value reads as the nil map, which has no keys.
   */
  lemma PresentAfterUnmarshal(j: Json, key: string)
    ensures ObjectOf(j).Some? && Present(ObjectOf(j).value, key) <==>
      j.Obj? && key in j.fields && !j.fields[key].Null?
  {
  }

  /**
   * Decoding a struct field of Go type string: an absent or null field
   * leaves the zero value "", a string is taken, any other value is a type
   * error (None).
   */
  function StringField(m: map<string, Json>, key: string): (r: Option<string>)
    ensures r.None? <==> Present(m, key) && !m[key].Str?
    ensures r == Some("") <== !Present(m, key)
    ensures Present(m, key) && m[key].Str? ==> r == Some(m[key].s)
  {
    if !Present(m, key) then Some("")
    else if m[key].Str? then Some(m[key].s)
    else None
  }
}

=== FILE: mounting.dfy ===
/**
 * The worker-wide state the mounts act on: the filesystem, the download
 * cache (`fileCaches`: content key to downloaded file) and the directory
 * cache (`directoryCaches`: cache name to the directory it was last left
 * in), with the operations that move content in and out of task homes.
 */
module Mounting {
  import opened Wrappers
  import opened Errors
  import opened FileSystem
  import opened Content
  import opened Entries

  /** Archive formats extract knows how to unpack. */
  const Formats: set<string> := {"zip", "tar.gz", "rar", "tar.bz2"}

  /** One call of Download, and whether it produced a file. */
  datatype Fetch = Fetch(key: string, ok: bool)

  datatype Phase = MountCall | UnmountCall

  /** The worker's mutable state at one moment. */
  datatype WState = WState(fs: FileSystem, fileCaches: map<string, Path>, fetches: seq<Fetch>,
                           directoryCaches: map<string, Path>)

  /**
   * One Mount or Unmount of an entry, with what it returned and the state
   * just before and just after it.
   */
  datatype Op = Op(phase: Phase, entry: MountEntry, result: Option<Error>, before: WState, after: WState)

  /** Paths a fresh slug must avoid: the tree and both caches' records. */
  function Occupied(fs: FileSystem, files: map<string, Path>, dirs: map<string, Path>): set<Path> {
    fs.Keys + files.Values + dirs.Values
  }

  /** MkdirAll of `parent`, then a rename of `src` to `dst`, took `before` to `after`. */
  ghost predicate MovedAfterMkdir(before: FileSystem, parent: Path, src: Path, dst: Path, after: FileSystem) {
    && (parent in before ==> before[parent].Dir?)
    && src in Mkdir(before, parent)
    && after == Moved(Mkdir(before, parent), src, dst)
  }

  /**
   * The download cache and log went from `b` to `a` as one ensureCached
   * call of `key` can take them: a hit changes nothing, a miss logs one
   * download and records the key, at a path not in use, exactly when it
   * succeeded.
   */
  ghost predicate CachedOnce(key: string, b: WState, a: WState) {
    && (key in b.fileCaches ==> a.fileCaches == b.fileCaches && a.fetches == b.fetches)
    && (key !in b.fileCaches ==>
          && a.fetches == b.fetches + [Fetch(key, key in a.fileCaches)]
          && (key in a.fileCaches ==>
                && a.fileCaches == b.fileCaches[key := a.fileCaches[key]]
                && a.fileCaches[key] !in Occupied(b.fs, b.fileCaches, b.directoryCaches))
          && (key !in a.fileCaches ==> a.fileCaches == b.fileCaches))
  }

  /**
   * The tree just after the ensureCached of `key` that took `b` to `a`: as
   * before, plus the downloaded file when the key is newly recorded.
   */
  ghost function CachedTree(key: string, b: WState, a: WState): FileSystem {
    if key in b.fileCaches || key !in a.fileCaches then b.fs else b.fs[a.fileCaches[key] := File(key)]
  }

  /**
   * What extract promises: the content is cached as ensureCached does it,
   * and a failed download changes nothing else.  After that only the target
   * changes, success unpacks the cached archive there, and once the
   * directory is made an unknown format is reported as such.
   */
  ghost predicate Extracted(key: string, format: string, dir: Path, err: Option<Error>, b: WState, a: WState) {
    && CachedOnce(key, b, a)
    && a.directoryCaches == b.directoryCaches
    && (key !in a.fileCaches ==> err == Some(DownloadFailed(key)) && a.fs == b.fs)
    && (key in a.fileCaches ==>
          var archive, cached := a.fileCaches[key], CachedTree(key, b, a);
          && ChangedOnlyAt(cached, a.fs, {dir})
          && (err.None? ==>
                && format in Formats && archive in cached && cached[archive].File? && dir in a.fs
                && a.fs[dir] == Dir(Unpacked(cached[archive].data, format)))
          && (format !in Formats && err != Some(MkdirFailed(dir)) ==> err == Some(UnsupportedFormat(format))))
    && (format !in Formats ==> err.Some?)
    && (err == Some(UnsupportedFormat(format)) ==> format !in Formats && dir in a.fs && a.fs[dir].Dir?)
  }

  /**
   * What mountFile promises: the content is cached as ensureCached does it,
   * and a failed download changes nothing else.  After that, success means
   * the cached file was moved to `file` once its parent was made, and a
   * failure changes only that parent.
   */
  ghost predicate Placed(key: string, file: Path, err: Option<Error>, b: WState, a: WState) {
    && CachedOnce(key, b, a)
    && a.directoryCaches == b.directoryCaches
    && (key !in a.fileCaches ==> err == Some(DownloadFailed(key)) && a.fs == b.fs)
    && (key in a.fileCaches ==>
          && (err.None? ==> MovedAfterMkdir(CachedTree(key, b, a), Dirname(file), a.fileCaches[key], file, a.fs))
          && (err.Some? ==> ChangedOnlyAt(CachedTree(key, b, a), a.fs, {Dirname(file)})))
  }

  /** Extract's two halves compose: a cache hit or a successful download, then the unpack. */
  lemma ExtractedAfterCache(key: string, format: string, dir: Path, err: Option<Error>, b: WState, mid: WState, a: WState)
    requires CachedOnce(key, b, mid) && mid.directoryCaches == b.directoryCaches
    requires key in mid.fileCaches && mid.fs == CachedTree(key, b, mid) && a == mid.(fs := a.fs)
    requires ChangedOnlyAt(mid.fs, a.fs, {dir})
    requires err.None? ==>
      && format in Formats && mid.fileCaches[key] in mid.fs && mid.fs[mid.fileCaches[key]].File? && dir in a.fs
      && a.fs[dir] == Dir(Unpacked(mid.fs[mid.fileCaches[key]].data, format))
    requires format !in Formats ==> err.Some?
    requires format !in Formats && err != Some(MkdirFailed(dir)) ==> err == Some(UnsupportedFormat(format))
    requires err == Some(UnsupportedFormat(format)) ==> format !in Formats && dir in a.fs && a.fs[dir].Dir?
    ensures Extracted(key, format, dir, err, b, a)
  {
  }

  /** mountFile's two halves compose: a cache hit or a successful download, then the move. */
  lemma PlacedAfterCache(key: string, file: Path, err: Option<Error>, b: WState, mid: WState, a: WState)
    requires CachedOnce(key, b, mid) && mid.directoryCaches == b.directoryCaches
    requires key in mid.fileCaches && mid.fs == CachedTree(key, b, mid) && a == mid.(fs := a.fs)
    requires err.None? ==> MovedAfterMkdir(mid.fs, Dirname(file), mid.fileCaches[key], file, a.fs)
    requires err.Some? ==> ChangedOnlyAt(mid.fs, a.fs, {Dirname(file)})
    ensures Placed(key, file, err, b, a)
  {
  }

  /** `ops` is a run of calls from `first` to `last`: each starts where the one before ended. */
  ghost predicate Chained(first: WState, ops: seq<Op>, last: WState) {
    if |ops| == 0 then first == last
    else
      && ops[0].before == first
      && ops[|ops| - 1].after == last
      && forall i :: 0 <= i < |ops| - 1 ==> ops[i].after == ops[i + 1].before
  }

  class Worker {
    const homeDir: Path
    const cachesDir: Path
    const downloadsDir: Path
    var fs: FileSystem
    var fileCaches: map<string, Path>
    var directoryCaches: map<string, Path>
    /** Every Download so far, in order. */
    ghost var fetches: seq<Fetch>
    /** Every Mount and Unmount so far, in order. */
    ghost var trace: seq<Op>

    /**
     * The download cache's invariant: a key is recorded exactly when one of
     * its downloads succeeded, no key was ever downloaded successfully twice,
     * and no two keys share a file.
     */
    ghost predicate Valid()
      reads this`fileCaches, this`fetches
    {
      && (forall i, j :: 0 <= i < j < |fetches| && fetches[i].ok && fetches[j].ok ==> fetches[i].key != fetches[j].key)
      && (forall k :: k in fileCaches <==> Fetch(k, true) in fetches)
      && (forall k1, k2 :: k1 in fileCaches && k2 in fileCaches && k1 != k2 ==> fileCaches[k1] != fileCaches[k2])
    }

    /** Paths a fresh slug must avoid. */
    function InUse(): set<Path>
      reads this`fs, this`fileCaches, this`directoryCaches
    {
      Occupied(fs, fileCaches, directoryCaches)
    }

    /** The worker's mutable state as a value. */
    ghost function State(): WState
      reads this`fs, this`fileCaches, this`fetches, this`directoryCaches
    {
      WState(fs, fileCaches, fetches, directoryCaches)
    }

    constructor (initial: FileSystem, home: Path, caches: Path, downloads: Path)
      ensures Valid()
      ensures homeDir == home && cachesDir == caches && downloadsDir == downloads
      ensures fs == initial && fileCaches == map[] && directoryCaches == map[]
      ensures fetches == [] && trace == []
    {
      homeDir, cachesDir, downloadsDir := home, caches, downloads;
      fs := initial;
      fileCaches, directoryCaches := map[], map[];
      fetches, trace := [], [];
    }

    /** slugid.Nice(): a basename whose path under `dir` is not in use. */
    method NewSlug(dir: Path) returns (name: string)
      ensures '/' !in name && Join(dir, name) !in InUse()
    {
      FreshNameExists(dir, InUse());
      name :| '/' !in name && Join(dir, name) !in InUse();
    }

    /** os.Rename: fails when `src` is missing or `dst` is empty, and may fail anyway. */
    method Rename(src: Path, dst: Path) returns (ok: bool)
      modifies this`fs
      ensures ok ==> src in old(fs) && dst != "" && fs == Moved(old(fs), src, dst)
      ensures !ok ==> fs == old(fs)
      ensures src !in old(fs) || dst == "" ==> !ok
    {
      if src !in fs || dst == "" {
        return false;
      }
      var fails: bool := *;  // a cross-device move, permissions, a non-empty target
      if fails {
        return false;
      }
      fs := Moved(fs, src, dst);
      return true;
    }

    /** os.MkdirAll: fails on a file in the way, and may fail anyway. */
    method MkdirAll(dir: Path) returns (ok: bool)
      modifies this`fs
      ensures ok ==> (dir in old(fs) ==> old(fs)[dir].Dir?) && fs == Mkdir(old(fs), dir)
      ensures !ok ==> fs == old(fs)
      ensures dir in old(fs) ==> (ok <==> old(fs)[dir].Dir?)
    {
      if dir in fs {
        return fs[dir].Dir?;
      }
      var fails: bool := *;
      if fails {
        return false;
      }
      fs := Mkdir(fs, dir);
      return true;
    }

    /**
     * FSContent.Download: fetch the content into a freshly named file under
     * the downloads directory, or fail.
     */
    method Download(c: FSContent) returns (r: Result<Path, Error>)
      modifies this`fs, this`fetches
      ensures fetches == old(fetches) + [Fetch(UniqueKey(c), r.Success?)]
      ensures r.Success? ==> Dirname(r.value) == downloadsDir && r.value !in old(InUse())
      ensures r.Success? ==> fs == old(fs)[r.value := File(UniqueKey(c))]
      ensures r.Failure? ==> r == Failure(DownloadFailed(UniqueKey(c))) && fs == old(fs)
    {
      var name := NewSlug(downloadsDir);
      var file := Join(downloadsDir, name);
      DirnameOfJoin(downloadsDir, name);
      var fetched: bool := *;  // the signed-URL request and the HTTP transfer
      if !fetched {
        fetches := fetches + [Fetch(UniqueKey(c), false)];
        return Failure(DownloadFailed(UniqueKey(c)));
      }
      fs := fs[file := File(UniqueKey(c))];
      fetches := fetches + [Fetch(UniqueKey(c), true)];
      return Success(file);
    }

    /**
     * ensureCached: a recorded key is answered from the cache without a
     * download; otherwise the content is downloaded once and, only if that
     * succeeds, recorded.
     */
    method EnsureCached(c: FSContent) returns (r: Result<Path, Error>)
      requires Valid()
      modifies this`fs, this`fileCaches, this`fetches
      ensures Valid()
      ensures CacheKept()
      ensures UniqueKey(c) in old(fileCaches) ==>
        && r == Success(old(fileCaches)[UniqueKey(c)])
        && fs == old(fs) && fileCaches == old(fileCaches) && fetches == old(fetches)
      ensures UniqueKey(c) !in old(fileCaches) ==> fetches == old(fetches) + [Fetch(UniqueKey(c), r.Success?)]
      ensures UniqueKey(c) !in old(fileCaches) && r.Success? ==>
        && fileCaches == old(fileCaches)[UniqueKey(c) := r.value]
        && r.value !in old(InUse()) && Dirname(r.value) == downloadsDir
        && fs == old(fs)[r.value := File(UniqueKey(c))]
      ensures UniqueKey(c) !in old(fileCaches) && r.Failure? ==>
        && r == Failure(DownloadFailed(UniqueKey(c)))
        && fileCaches == old(fileCaches) && fs == old(fs)
    {
      var key := UniqueKey(c);
      if key !in fileCaches {
        var file := Download(c);
        if file.Failure? {
          return file;
        }
        fileCaches := fileCaches[key := file.value];
      }
      return Success(fileCaches[key]);
    }

    /**
     * Every key the download cache held is still recorded, at the same path,
     * and the download log only grew.
     */
    twostate predicate CacheKept()
      reads this`fileCaches, this`fetches
    {
      && (forall k :: k in old(fileCaches) ==> k in fileCaches && fileCaches[k] == old(fileCaches)[k])
      && old(fetches) <= fetches
    }

    /**
     * The second half of extract: create the target directory, then unpack
     * the archive by format.
     */
    method Unpack(archive: Path, format: string, dir: Path) returns (err: Option<Error>)
      modifies this`fs
      ensures ChangedOnlyAt(old(fs), fs, {dir})
      ensures err.None? ==>
        && format in Formats && archive in old(fs) && old(fs)[archive].File? && dir in fs
        && fs[dir] == Dir(Unpacked(old(fs)[archive].data, format))
      ensures format !in Formats ==> err.Some?
      ensures format !in Formats && err != Some(MkdirFailed(dir)) ==> err == Some(UnsupportedFormat(format))
      ensures err == Some(UnsupportedFormat(format)) ==> format !in Formats && dir in fs && fs[dir].Dir?
    {
      var made := MkdirAll(dir);
      if !made {
        return Some(MkdirFailed(dir));
      }
      if format !in Formats {
        return Some(UnsupportedFormat(format));
      }
      if archive !in fs || !fs[archive].File? {
        return Some(ExtractFailed(archive, dir));
      }
      var corrupt: bool := *;  // the archive library's own failures
      if corrupt {
        return Some(ExtractFailed(archive, dir));
      }
      fs := fs[dir := Dir(Unpacked(fs[archive].data, format))];
      return None;
    }

    /**
     * extract: make sure the archive is cached, create the target directory,
     * then unpack by format.  An unknown format is the process-ending
     * log.Fatalf, returned here as UnsupportedFormat.
     */
    method Extract(c: FSContent, format: string, dir: Path) returns (err: Option<Error>)
      requires Valid()
      modifies this`fs, this`fileCaches, this`fetches
      ensures Valid()
      ensures CacheKept()
      ensures Extracted(UniqueKey(c), format, dir, err, old(State()), State())
    {
      ghost var b := State();
      var cached := EnsureCached(c);
      ghost var mid := State();
      assert CachedOnce(UniqueKey(c), b, mid);
      if cached.Failure? {
        return Some(cached.error);
      }
      assert UniqueKey(c) in mid.fileCaches && mid.fileCaches[UniqueKey(c)] == cached.value;
      assert mid.fs == CachedTree(UniqueKey(c), b, mid);
      err := Unpack(cached.value, format, dir);
      ExtractedAfterCache(UniqueKey(c), format, dir, err, b, mid, State());
    }

    /** The second half of mountFile: make the parent directory of `file`, then move `src` there. */
    method MoveInto(src: Path, file: Path) returns (err: Option<Error>)
      modifies this`fs
      ensures err.None? ==> MovedAfterMkdir(old(fs), Dirname(file), src, file, fs)
      ensures err.Some? ==> ChangedOnlyAt(old(fs), fs, {Dirname(file)})
    {
      var parent := Dirname(file);
      var made := MkdirAll(parent);
      if !made {
        return Some(MkdirFailed(parent));
      }
      var moved := Rename(src, file);
      if !moved {
        return Some(RenameFailed(src, file));
      }
      return None;
    }

    /** mountFile: make sure the file is cached, then move it (not copy it) to `file`. */
    method MountFile(c: FSContent, file: Path) returns (err: Option<Error>)
      requires Valid()
      modifies this`fs, this`fileCaches, this`fetches
      ensures Valid()
      ensures CacheKept()
      ensures Placed(UniqueKey(c), file, err, old(State()), State())
    {
      ghost var b := State();
      var cached := EnsureCached(c);
      ghost var mid := State();
      assert CachedOnce(UniqueKey(c), b, mid);
      if cached.Failure? {
        return Some(cached.error);
      }
      assert UniqueKey(c) in mid.fileCaches && mid.fileCaches[UniqueKey(c)] == cached.value;
      assert mid.fs == CachedTree(UniqueKey(c), b, mid);
      err := MoveInto(cached.value, file);
      PlacedAfterCache(UniqueKey(c), file, err, b, mid, State());
    }

    /**
     * What WritableDirectoryCache.Mount promises, by whether the cache name
     * is known and by the content.  The directory cache is never changed.
     */
    ghost predicate CacheMounted(e: MountEntry, err: Option<Error>, b: WState, a: WState) {
      && e.WritableDirectoryCache?
      && a.directoryCaches == b.directoryCaches
      && (e.cacheName in b.directoryCaches ==>
        var cached := b.directoryCaches[e.cacheName];
        && (err.None? ==> cached in b.fs && a == b.(fs := Moved(b.fs, cached, Join(homeDir, e.directory))))
        && (err.Some? ==> a == b && err == Some(RenameFailed(cached, Join(homeDir, e.directory)))))
      && (e.cacheName !in b.directoryCaches && e.content.Some? && DecodeContent(e.content).Failure? ==>
        err == Some(NoFSContent(DecodeContent(e.content).error)) && a == b)
      && (e.cacheName !in b.directoryCaches && e.content.Some? && DecodeContent(e.content).Success? ==>
        Extracted(UniqueKey(DecodeContent(e.content).value), e.format, Join(homeDir, e.directory), err, b, a))
      && (e.cacheName !in b.directoryCaches && e.content.None? ==>
        && (err.None? ==>
              && (Join(homeDir, e.directory) in b.fs ==> b.fs[Join(homeDir, e.directory)].Dir?)
              && a == b.(fs := Mkdir(b.fs, Join(homeDir, e.directory))))
        && (err.Some? ==> a == b && err == Some(MkdirFailed(Join(homeDir, e.directory)))))
    }

    /**
     * WritableDirectoryCache.Mount: a cache name seen before has its
     * directory renamed into place; otherwise preloaded content is
     * extracted there, or an empty directory is made.
     */
    method MountWritableCache(e: MountEntry) returns (err: Option<Error>)
      requires Valid() && e.WritableDirectoryCache?
      modifies this`fs, this`fileCaches, this`fetches
      ensures Valid()
      ensures CacheKept()
      ensures CacheMounted(e, err, old(State()), State())
    {
      var target := Join(homeDir, e.directory);
      if e.cacheName in directoryCaches {
        var moved := Rename(directoryCaches[e.cacheName], target);
        if !moved {
          return Some(RenameFailed(directoryCaches[e.cacheName], target));
        }
        return None;
      }
      if e.content.Some? {
        var c := DecodeContent(e.content);
        if c.Failure? {
          return Some(NoFSContent(c.error));
        }
        err := Extract(c.value, e.format, target);
        return;
      }
      var made := MkdirAll(target);
      if !made {
        return Some(MkdirFailed(target));
      }
      return None;
    }

    /** What ReadOnlyDirectory.Mount promises: a content error changes nothing, else extract. */
    ghost predicate DirectoryMounted(e: MountEntry, err: Option<Error>, b: WState, a: WState) {
      && e.ReadOnlyDirectory?
      && (DecodeContent(e.content).Failure? ==>
        err == Some(NoFSContent(DecodeContent(e.content).error)) && a == b)
      && (DecodeContent(e.content).Success? ==>
        Extracted(UniqueKey(DecodeContent(e.content).value), e.format, Join(homeDir, e.directory), err, b, a))
    }

    /** ReadOnlyDirectory.Mount: extract the content into the target directory. */
    method MountReadOnlyDirectory(e: MountEntry) returns (err: Option<Error>)
      requires Valid() && e.ReadOnlyDirectory?
      modifies this`fs, this`fileCaches, this`fetches
      ensures Valid()
      ensures CacheKept()
      ensures DirectoryMounted(e, err, old(State()), State())
    {
      var c := DecodeContent(e.content);
      if c.Failure? {
        return Some(NoFSContent(c.error));
      }
      err := Extract(c.value, e.format, Join(homeDir, e.directory));
    }

    /** What FileMount.Mount promises: a content error changes nothing, else mountFile. */
    ghost predicate FileMounted(e: MountEntry, err: Option<Error>, b: WState, a: WState) {
      && e.FileMount?
      && (DecodeContent(e.content).Failure? ==> err == Some(DecodeContent(e.content).error) && a == b)
      && (DecodeContent(e.content).Success? ==>
        Placed(UniqueKey(DecodeContent(e.content).value), Join(homeDir, e.file), err, b, a))
    }

    /** FileMount.Mount: move the cached file to the target path. */
    method MountFileEntry(e: MountEntry) returns (err: Option<Error>)
      requires Valid() && e.FileMount?
      modifies this`fs, this`fileCaches, this`fetches
      ensures Valid()
      ensures CacheKept()
      ensures FileMounted(e, err, old(State()), State())
    {
      var c := DecodeContent(e.content);
      if c.Failure? {
        return Some(c.error);
      }
      err := MountFile(c.value, Join(homeDir, e.file));
    }

    /**
     * What WritableDirectoryCache.Unmount promises: a fresh slot under the
     * caches directory is recorded for the name, and on success the mounted
     * directory was moved there.  The download cache is not touched.
     */
    ghost predicate CacheUnmounted(e: MountEntry, err: Option<Error>, b: WState, a: WState) {
      && e.WritableDirectoryCache?
      && e.cacheName in a.directoryCaches
      && a.fileCaches == b.fileCaches && a.fetches == b.fetches
      && var slot := a.directoryCaches[e.cacheName];
      && a.directoryCaches == b.directoryCaches[e.cacheName := slot]
      && Dirname(slot) == cachesDir
      && slot !in Occupied(b.fs, b.fileCaches, b.directoryCaches)
      && (err.None? ==> Join(homeDir, e.directory) in b.fs && a.fs == Moved(b.fs, Join(homeDir, e.directory), slot))
      && (err.Some? ==> a.fs == b.fs && err == Some(RenameFailed(Join(homeDir, e.directory), slot)))
    }

    /**
     * WritableDirectoryCache.Unmount: record a fresh slot under the caches
     * directory for the cache name (replacing any earlier record, and even
     * when the move then fails), then move the mounted directory there.
     */
    method UnmountWritableCache(e: MountEntry) returns (err: Option<Error>)
      requires e.WritableDirectoryCache?
      modifies this`fs, this`directoryCaches
      ensures CacheUnmounted(e, err, old(State()), State())
    {
      var name := NewSlug(cachesDir);
      var slot := Join(cachesDir, name);
      DirnameOfJoin(cachesDir, name);
      directoryCaches := directoryCaches[e.cacheName := slot];
      var source := Join(homeDir, e.directory);
      var moved := Rename(source, slot);
      if !moved {
        return Some(RenameFailed(source, slot));
      }
      return None;
    }

    /** ReadOnlyDirectory.Unmount: the archive was never moved, so nothing to do. */
    method UnmountReadOnlyDirectory(e: MountEntry) returns (err: Option<Error>)
      requires e.ReadOnlyDirectory?
      ensures err.None?
    {
      return None;
    }

    /**
     * What FileMount.Unmount promises: a content error changes nothing;
     * otherwise the file went back to its cached path, or the move failed
     * and nothing changed.  Neither cache is touched.
     */
    ghost predicate FileUnmounted(e: MountEntry, err: Option<Error>, b: WState, a: WState) {
      && e.FileMount?
      && a.fileCaches == b.fileCaches && a.fetches == b.fetches && a.directoryCaches == b.directoryCaches
      && (DecodeContent(e.content).Failure? ==> err == Some(DecodeContent(e.content).error) && a.fs == b.fs)
      && (DecodeContent(e.content).Success? ==>
        var key := UniqueKey(DecodeContent(e.content).value);
        var dst := if key in b.fileCaches then b.fileCaches[key] else "";
        && (err.None? ==>
              key in b.fileCaches && Join(homeDir, e.file) in b.fs &&
              a.fs == Moved(b.fs, Join(homeDir, e.file), dst))
        && (err.Some? ==> a.fs == b.fs && err == Some(RenameFailed(Join(homeDir, e.file), dst))))
    }

    /**
     * FileMount.Unmount: move the file back to the path the download cache
     * records for its content (an unrecorded key gives the empty path, and
     * the move fails).
     */
    method UnmountFileEntry(e: MountEntry) returns (err: Option<Error>)
      requires e.FileMount?
      modifies this`fs
      ensures FileUnmounted(e, err, old(State()), State())
    {
      var c := DecodeContent(e.content);
      if c.Failure? {
        return Some(c.error);
      }
      var key := UniqueKey(c.value);
      var dst := if key in fileCaches then fileCaches[key] else "";
      var source := Join(homeDir, e.file);
      var moved := Rename(source, dst);
      if !moved {
        return Some(RenameFailed(source, dst));
      }
      return None;
    }

    /** What MountEntry.Mount promises, by the kind of entry. */
    ghost predicate Mounted(e: MountEntry, err: Option<Error>, b: WState, a: WState) {
      && (e.WritableDirectoryCache? ==> CacheMounted(e, err, b, a))
      && (e.ReadOnlyDirectory? ==> DirectoryMounted(e, err, b, a))
      && (e.FileMount? ==> FileMounted(e, err, b, a))
    }

    /** What MountEntry.Unmount promises, by the kind of entry. */
    ghost predicate Unmounted(e: MountEntry, err: Option<Error>, b: WState, a: WState) {
      && (e.WritableDirectoryCache? ==> CacheUnmounted(e, err, b, a))
      && (e.ReadOnlyDirectory? ==> err.None? && a == b)
      && (e.FileMount? ==> FileUnmounted(e, err, b, a))
    }

    /** The logged call did what its phase and its entry's kind promise. */
    ghost predicate Stepped(op: Op) {
      match op.phase
      case MountCall => Mounted(op.entry, op.result, op.before, op.after)
      case UnmountCall => Unmounted(op.entry, op.result, op.before, op.after)
    }

    /** `ops` took the state from `first` to `last`, each call as its kind promises. */
    ghost predicate Replayed(first: WState, ops: seq<Op>, last: WState) {
      && Chained(first, ops, last)
      && forall i :: 0 <= i < |ops| ==> Stepped(ops[i])
    }

    /** A run extended by one call that starts where the run ended. */
    lemma ReplayedSnoc(first: WState, ops: seq<Op>, op: Op)
      requires Replayed(first, ops, op.before) && Stepped(op)
      ensures Replayed(first, ops + [op], op.after)
    {
      var ops' := ops + [op];
      assert ops'[|ops|] == op;
      forall i | 0 <= i < |ops'| - 1
        ensures ops'[i].after == ops'[i + 1].before
      {
        if i < |ops| - 1 {
          assert ops'[i] == ops[i] && ops'[i + 1] == ops[i + 1];
        }
      }
      assert forall i :: 0 <= i < |ops| ==> ops'[i] == ops[i];
    }

    /** MountEntry.Mount, dispatched on the kind of entry and logged with the states around it. */
    method Mount(e: MountEntry) returns (err: Option<Error>)
      requires Valid()
      modifies this`fs, this`fileCaches, this`fetches, this`trace
      ensures Valid()
      ensures CacheKept()
      ensures Mounted(e, err, old(State()), State())
      ensures trace == old(trace) + [Op(MountCall, e, err, old(State()), State())]
    {
      ghost var before := State();
      match e {
        case WritableDirectoryCache(_, _, _, _) => err := MountWritableCache(e);
        case ReadOnlyDirectory(_, _, _) => err := MountReadOnlyDirectory(e);
        case FileMount(_, _) => err := MountFileEntry(e);
      }
      trace := trace + [Op(MountCall, e, err, before, State())];
    }

    /** MountEntry.Unmount, dispatched on the kind of entry and logged with the states around it. */
    method Unmount(e: MountEntry) returns (err: Option<Error>)
      requires Valid()
      modifies this`fs, this`directoryCaches, this`trace
      ensures Valid()
      ensures Unmounted(e, err, old(State()), State())
      ensures trace == old(trace) + [Op(UnmountCall, e, err, old(State()), State())]
    {
      ghost var before := State();
      match e {
        case WritableDirectoryCache(_, _, _, _) => err := UnmountWritableCache(e);
        case ReadOnlyDirectory(_, _, _) => err := UnmountReadOnlyDirectory(e);
        case FileMount(_, _) => err := UnmountFileEntry(e);
      }
      trace := trace + [Op(UnmountCall, e, err, before, State())];
    }
  }

  /**
   * The file-mount round trip: once the cached file was moved to a target
   * that did not exist, moving it back leaves the tree as it was after the
   * parent directory was made, so the cache's path holds the file again.
   */
  lemma FileMountRoundTrip(before: FileSystem, cachePath: Path, target: Path, mounted: FileSystem)
    requires MovedAfterMkdir(before, Dirname(target), cachePath, target, mounted)
    requires target !in before && target != Dirname(target)
    ensures target in mounted
    ensures Moved(mounted, target, cachePath) == Mkdir(before, Dirname(target))
    ensures cachePath in Moved(mounted, target, cachePath)
  {
    MovedBack(Mkdir(before, Dirname(target)), cachePath, target);
  }
}

=== FILE: taskmount.dfy ===
/**
 * The per-task mount feature: decoding the payload's mount list (errors are
 * kept for later, not raised), computing the scopes a task needs, and
 * mounting and unmounting every entry in order at task start and stop.
 */
module TaskMounts {
  import opened Wrappers
  import opened Json
  import opened Errors
  import opened Content
  import opened Entries
  import opened Mounting

  /**
   * The decoding loop's state: the entries kept so far, the stored payload
   * error, and whether the loop returned early.
   */
  datatype Decoded = Decoded(mounts: seq<MountEntry>, payloadError: Option<Error>, abandoned: bool)

  /** One turn of the decoding loop, for the mount at `index`. */
  function DecodeStep(d: Decoded, index: nat, decoded: EntryDecoding): (r: Decoded)
    ensures d.abandoned ==> r == d
    ensures |d.mounts| <= |r.mounts| <= |d.mounts| + 1
    ensures d.payloadError.Some? ==> r.mounts == d.mounts && r.payloadError.Some?
  {
    if d.abandoned then d
    else match decoded
      case NotAnObject => d.(payloadError := Some(UnreadableMount(index)), abandoned := true)
      case Unrecognised => d.(payloadError := Some(UnrecognisedMount))
      case Recognised(e, err) =>
        if d.payloadError.Some? then d else d.(mounts := d.mounts + [e], payloadError := err)
  }

  /** The decoding loop run over the whole list. */
  function DecodeMounts(raws: seq<Json>): (r: Decoded)
    ensures |r.mounts| <= |raws|
    ensures r.abandoned ==> r.payloadError.Some?
  {
    if raws == [] then Decoded([], None, false)
    else DecodeStep(DecodeMounts(raws[..|raws| - 1]), |raws| - 1, DecodeEntry(raws[|raws| - 1]))
  }

  /**
   * Once a payload error is stored it is never cleared, and no later entry
   * is kept; once the loop has returned early nothing changes at all.
   */
  lemma {:induction false} DecodeErrorSticks(raws: seq<Json>, n: nat)
    requires n <= |raws|
    requires DecodeMounts(raws[..n]).payloadError.Some?
    ensures DecodeMounts(raws).payloadError.Some?
    ensures DecodeMounts(raws).mounts == DecodeMounts(raws[..n]).mounts
    ensures DecodeMounts(raws[..n]).abandoned ==> DecodeMounts(raws) == DecodeMounts(raws[..n])
  {
    if n < |raws| {
      var shorter := raws[..|raws| - 1];
      assert shorter[..n] == raws[..n];
      DecodeErrorSticks(shorter, n);
    } else {
      assert raws[..n] == raws;
    }
  }

  /**
   * The kept entries are the decoded entries of a prefix of the payload,
   * in payload order, and only the last of them may have failed to decode.
   */
  lemma {:induction false} DecodedMountsInOrder(raws: seq<Json>)
    ensures var d := DecodeMounts(raws);
      forall i :: 0 <= i < |d.mounts| ==>
        && DecodeEntry(raws[i]).Recognised?
        && d.mounts[i] == DecodeEntry(raws[i]).entry
        && (i < |d.mounts| - 1 ==> DecodeEntry(raws[i]).error.None?)
    ensures var d := DecodeMounts(raws);
      |d.mounts| > 0 && d.payloadError.None? ==> DecodeEntry(raws[|d.mounts| - 1]).error.None?
  {
    if raws != [] {
      var shorter := raws[..|raws| - 1];
      var d, step := DecodeMounts(shorter), DecodeEntry(raws[|raws| - 1]);
      assert DecodeMounts(raws) == DecodeStep(d, |raws| - 1, step);
      assert forall i :: 0 <= i < |shorter| ==> raws[i] == shorter[i];
      if !d.abandoned && d.payloadError.None? && step.Recognised? {
        DecodeCleanPrefix(shorter);
        assert DecodeMounts(raws) == Decoded(d.mounts + [step.entry], step.error, false);
      } else {
        DecodedMountsInOrder(shorter);
        assert DecodeMounts(raws).mounts == d.mounts;
        assert DecodeMounts(raws).payloadError.None? ==> d.payloadError.None?;
      }
    }
  }

  /**
   * Decoding stores no error exactly when every mount is of a recognised
   * kind and decodes without a field error; then every mount is kept.
   */
  lemma {:induction false} DecodeCleanPrefix(raws: seq<Json>)
    ensures DecodeMounts(raws).payloadError.None? <==>
      forall i :: 0 <= i < |raws| ==> DecodeEntry(raws[i]).Recognised? && DecodeEntry(raws[i]).error.None?
    ensures DecodeMounts(raws).payloadError.None? ==>
      |DecodeMounts(raws).mounts| == |raws| && !DecodeMounts(raws).abandoned &&
      forall i :: 0 <= i < |raws| ==> DecodeMounts(raws).mounts[i] == DecodeEntry(raws[i]).entry
  {
    if raws != [] {
      var shorter := raws[..|raws| - 1];
      DecodeCleanPrefix(shorter);
      var d, step := DecodeMounts(shorter), DecodeEntry(raws[|raws| - 1]);
      assert DecodeMounts(raws) == DecodeStep(d, |raws| - 1, step);
      assert forall i :: 0 <= i < |shorter| ==> raws[i] == shorter[i];
      if d.payloadError.None? && step.Recognised? && step.error.None? {
        assert DecodeMounts(raws) == Decoded(d.mounts + [step.entry], None, false);
      } else {
        assert DecodeMounts(raws).payloadError.Some?;
      }
    }
  }

  /**
   * A recognised mount whose own fields fail to decode, after a clean
   * prefix, is still kept, as the last entry, and an error is stored; Stop
   * will later unmount it like any other.
   */
  lemma {:induction false} MistypedMountKept(raws: seq<Json>, k: nat)
    requires k < |raws|
    requires forall i :: 0 <= i < k ==> DecodeEntry(raws[i]).Recognised? && DecodeEntry(raws[i]).error.None?
    requires DecodeEntry(raws[k]).Recognised? && DecodeEntry(raws[k]).error.Some?
    ensures |DecodeMounts(raws).mounts| == k + 1
    ensures DecodeMounts(raws).mounts[k] == DecodeEntry(raws[k]).entry
    ensures DecodeMounts(raws).payloadError.Some?
  {
    var prefix, clean := raws[..k + 1], raws[..k];
    assert prefix[..k] == clean && prefix[k] == raws[k];
    assert forall i :: 0 <= i < k ==> clean[i] == raws[i];
    DecodeCleanPrefix(clean);
    var d, step := DecodeMounts(clean), DecodeEntry(raws[k]);
    assert d.payloadError.None? && !d.abandoned && |d.mounts| == k;
    assert DecodeMounts(prefix) == DecodeStep(d, k, step);
    assert DecodeMounts(prefix) == Decoded(d.mounts + [step.entry], step.error, false);
    DecodeErrorSticks(raws, k + 1);
  }

  /** The scope computation's result: the scopes gathered, and the error that stopped it. */
  datatype Aggregation = Aggregation(scopes: seq<string>, error: Option<Error>)

  /**
   * initRequiredScopes over a mount list: each entry's own scopes, then its
   * content's; an entry whose content fails to decode stops the walk after
   * its own scopes.
   */
  function Aggregate(ms: seq<MountEntry>): (r: Aggregation)
    ensures |r.scopes| <= 2 * |ms|
    ensures forall s :: s in r.scopes ==> ArtifactScopePrefix <= s || CacheScopePrefix <= s
  {
    if ms == [] then Aggregation([], None)
    else match EntryContent(ms[0])
      case Failure(err) => Aggregation(EntryScopes(ms[0]), Some(err))
      case Success(_) =>
        var rest := Aggregate(ms[1..]);
        Aggregation(AllScopes(ms[0]) + rest.scopes, rest.error)
  }

  /** One step of the walk, from entry `i` on. */
  lemma AggregateFrom(ms: seq<MountEntry>, i: nat)
    requires i < |ms|
    ensures EntryContent(ms[i]).Failure? ==>
      Aggregate(ms[i..]) == Aggregation(EntryScopes(ms[i]), Some(EntryContent(ms[i]).error))
    ensures EntryContent(ms[i]).Success? ==>
      Aggregate(ms[i..]) == Aggregation(AllScopes(ms[i]) + Aggregate(ms[i + 1..]).scopes, Aggregate(ms[i + 1..]).error)
  {
    assert ms[i..][1..] == ms[i + 1..];
  }

  /**
   * One iteration of the scope walk: the scopes gathered so far, followed by
   * the rest of the walk from entry `i`, in the order the loop appends them.
   */
  lemma AggregateStep(ms: seq<MountEntry>, i: nat, scopes: seq<string>)
    requires i < |ms|
    ensures EntryContent(ms[i]).Failure? ==> Aggregate(ms[i..]).error == Some(EntryContent(ms[i]).error)
    ensures EntryContent(ms[i]).Success? ==> Aggregate(ms[i..]).error == Aggregate(ms[i + 1..]).error
    ensures EntryContent(ms[i]).Success? && EntryContent(ms[i]).value.None? ==>
      scopes + Aggregate(ms[i..]).scopes == (scopes + EntryScopes(ms[i])) + Aggregate(ms[i + 1..]).scopes
    ensures EntryContent(ms[i]).Success? && EntryContent(ms[i]).value.Some? ==>
      scopes + Aggregate(ms[i..]).scopes ==
        (scopes + EntryScopes(ms[i]) + RequiredScopes(EntryContent(ms[i]).value.value)) + Aggregate(ms[i + 1..]).scopes
  {
    AggregateFrom(ms, i);
    if EntryContent(ms[i]).Success? {
      var own, content := EntryScopes(ms[i]), ContentScopes(EntryContent(ms[i]).value);
      var rest := Aggregate(ms[i + 1..]).scopes;
      assert AllScopes(ms[i]) == own + content;
      AppendAssoc(scopes, own + content, rest);
      AppendAssoc(scopes, own, content);
      if content == [] {
        assert own + content == own;
      }
    }
  }

  lemma AppendAssoc(a: seq<string>, b: seq<string>, c: seq<string>)
    ensures a + (b + c) == (a + b) + c
  {
  }

  /**
   * The scope computation fails exactly when some entry's content fails to
   * decode, and then with the first such entry's error.
   */
  lemma {:induction false} AggregateError(ms: seq<MountEntry>)
    ensures Aggregate(ms).error.Some? <==> exists i :: 0 <= i < |ms| && EntryContent(ms[i]).Failure?
    ensures Aggregate(ms).error.Some? ==>
      exists i :: 0 <= i < |ms| && EntryContent(ms[i]).Failure? &&
        Aggregate(ms).error == Some(EntryContent(ms[i]).error) &&
        forall j :: 0 <= j < i ==> EntryContent(ms[j]).Success?
  {
    if ms != [] {
      var rest := ms[1..];
      AggregateError(rest);
      AggregateFrom(ms, 0);
      assert ms[1..] == rest;
      if EntryContent(ms[0]).Success? {
        if Aggregate(rest).error.Some? {
          var i :| 0 <= i < |rest| && EntryContent(rest[i]).Failure? &&
            Aggregate(rest).error == Some(EntryContent(rest[i]).error) &&
            forall j :: 0 <= j < i ==> EntryContent(rest[j]).Success?;
          assert ms[i + 1] == rest[i];
          forall j | 0 <= j < i + 1
            ensures EntryContent(ms[j]).Success?
          {
            if j > 0 {
              assert ms[j] == rest[j - 1];
            }
          }
        } else {
          forall i | 0 <= i < |ms|
            ensures EntryContent(ms[i]).Success?
          {
            if i > 0 {
              assert ms[i] == rest[i - 1];
            }
          }
        }
      }
    }
  }

  /**
   * With no error, the scopes are exactly those some entry needs: its own
   * or its content's.  Nothing is missing and nothing is added.
   */
  lemma {:induction false} AggregateScopesExact(ms: seq<MountEntry>, s: string)
    requires Aggregate(ms).error.None?
    ensures forall i :: 0 <= i < |ms| ==> EntryContent(ms[i]).Success?
    ensures s in Aggregate(ms).scopes <==> exists i :: 0 <= i < |ms| && s in AllScopes(ms[i])
  {
    AggregateError(ms);
    if ms != [] {
      AggregateScopesExact(ms[1..], s);
      if s in Aggregate(ms[1..]).scopes {
        var i :| 0 <= i < |ms[1..]| && s in AllScopes(ms[1..][i]);
        assert s in AllScopes(ms[i + 1]);
      }
      if exists i :: 0 <= i < |ms| && s in AllScopes(ms[i]) {
        var i :| 0 <= i < |ms| && s in AllScopes(ms[i]);
        if i > 0 {
          assert s in AllScopes(ms[1..][i - 1]);
        }
      }
    }
  }

  /**
   * The security consequence: when the scopes were computed, a task is
   * asked for the cache scope of every writable cache and the get-artifact
   * scope of every non-public artifact it mounts.
   */
  lemma EveryCacheAndPrivateArtifactScoped(ms: seq<MountEntry>, i: nat)
    requires i < |ms| && Aggregate(ms).error.None?
    ensures ms[i].WritableDirectoryCache? ==> CacheScope(ms[i].cacheName) in Aggregate(ms).scopes
    ensures EntryContent(ms[i]).Success? && EntryContent(ms[i]).value.Some? &&
            EntryContent(ms[i]).value.value.ArtifactContent? &&
            !IsPublic(EntryContent(ms[i]).value.value.artifact) ==>
            ArtifactScope(EntryContent(ms[i]).value.value.artifact) in Aggregate(ms).scopes
  {
    AggregateError(ms);
    var content := EntryContent(ms[i]).value;
    if ms[i].WritableDirectoryCache? {
      var s := CacheScope(ms[i].cacheName);
      assert s in EntryScopes(ms[i]);
      assert s in AllScopes(ms[i]);
      AggregateScopesExact(ms, s);
    }
    if content.Some? && content.value.ArtifactContent? && !IsPublic(content.value.artifact) {
      var s := ArtifactScope(content.value.artifact);
      assert s in RequiredScopes(content.value);
      assert s in AllScopes(ms[i]);
      AggregateScopesExact(ms, s);
    }
  }

  /**
   * `ops` is what one Start or Stop did: the entries in list order, each
   * attempted only after the one before it succeeded, ending at the first
   * failure, whose error is returned, or after the last entry.
   */
  ghost predicate RanInOrder(phase: Phase, ms: seq<MountEntry>, ops: seq<Op>, err: Option<Error>) {
    && |ops| <= |ms|
    && (forall i :: 0 <= i < |ops| ==> ops[i].phase == phase && ops[i].entry == ms[i])
    && (forall i :: 0 <= i < |ops| - 1 ==> ops[i].result.None?)
    && (err.None? ==> |ops| == |ms| && (|ops| > 0 ==> ops[|ops| - 1].result.None?))
    && (err.Some? ==> |ops| > 0 && ops[|ops| - 1].result == err)
  }

  /** `ops` ran `phase` successfully over the first `|ops|` entries of `ms`, in order. */
  ghost predicate RanCleanly(phase: Phase, ms: seq<MountEntry>, ops: seq<Op>) {
    && |ops| <= |ms|
    && forall j :: 0 <= j < |ops| ==> ops[j].phase == phase && ops[j].entry == ms[j] && ops[j].result.None?
  }

  /** One more successful call on the next entry keeps the run clean. */
  lemma RanCleanlySnoc(phase: Phase, ms: seq<MountEntry>, ops: seq<Op>, op: Op)
    requires RanCleanly(phase, ms, ops) && |ops| < |ms|
    requires op.phase == phase && op.entry == ms[|ops|] && op.result.None?
    ensures RanCleanly(phase, ms, ops + [op])
  {
    assert forall j :: 0 <= j < |ops| ==> (ops + [op])[j] == ops[j];
  }

  /** Regrouping a log extended twice, and the part of a log after its first piece. */
  lemma LogParts(a: seq<Op>, b: seq<Op>, c: seq<Op>)
    ensures (a + b) + c == a + (b + c)
    ensures (a + b)[|a|..] == b
  {
  }

  /** A clean run followed by a failure on the next entry ran in order and stopped there. */
  lemma StoppedAtFirstFailure(phase: Phase, ms: seq<MountEntry>, ops: seq<Op>, op: Op)
    requires RanCleanly(phase, ms, ops) && |ops| < |ms|
    requires op.phase == phase && op.entry == ms[|ops|] && op.result.Some?
    ensures RanInOrder(phase, ms, ops + [op], op.result)
  {
    assert forall j :: 0 <= j < |ops| ==> (ops + [op])[j] == ops[j];
  }

  /**
   * The loop of initRequiredScopes over the mount list: each entry's own
   * scope, then its content's; the first content that fails to decode ends
   * the walk with its error.
   */
  method GatherScopes(ms: seq<MountEntry>) returns (scopes: seq<string>, err: Option<Error>)
    ensures err == Aggregate(ms).error
    ensures err.None? ==> scopes == Aggregate(ms).scopes
  {
    scopes := [];
    var i := 0;
    while i < |ms|
      invariant 0 <= i <= |ms|
      invariant Aggregate(ms).scopes == scopes + Aggregate(ms[i..]).scopes
      invariant Aggregate(ms).error == Aggregate(ms[i..]).error
    {
      AggregateStep(ms, i, scopes);
      var mount := ms[i];
      scopes := scopes + EntryScopes(mount);
      var content := EntryContent(mount);
      if content.Failure? {
        return scopes, Some(content.error);
      }
      if content.value.Some? {
        scopes := scopes + RequiredScopes(content.value.value);
      }
      i := i + 1;
    }
    assert ms[i..] == [];
    return scopes, None;
  }

  class TaskMount {
    var mounts: seq<MountEntry>
    var payloadError: Option<Error>
    var requiredScopes: seq<string>

    /**
     * NewTaskFeature: decode the payload's mounts, storing an error for
     * Start to report (a field type error only when none is stored yet; an
     * unreadable or unrecognised mount replaces it), then compute the
     * required scopes unless the loop returned early on a mount it could
     * not read.
     */
    constructor (raws: seq<Json>)
      ensures mounts == DecodeMounts(raws).mounts
      ensures DecodeMounts(raws).abandoned ==>
        payloadError == DecodeMounts(raws).payloadError && requiredScopes == []
      ensures !DecodeMounts(raws).abandoned && Aggregate(mounts).error.Some? ==>
        payloadError == Aggregate(mounts).error && requiredScopes == []
      ensures !DecodeMounts(raws).abandoned && Aggregate(mounts).error.None? ==>
        payloadError == DecodeMounts(raws).payloadError && requiredScopes == Aggregate(mounts).scopes
    {
      mounts := [];
      payloadError := None;
      requiredScopes := [];
      new;
      var i := 0;
      while i < |raws|
        invariant 0 <= i <= |raws|
        invariant DecodeMounts(raws[..i]) == Decoded(mounts, payloadError, false)
        invariant requiredScopes == []
      {
        assert raws[..i + 1][..i] == raws[..i];
        match DecodeEntry(raws[i]) {
          case NotAnObject =>
            payloadError := Some(UnreadableMount(i));
            DecodeErrorSticks(raws, i + 1);
            return;
          case Unrecognised =>
            payloadError := Some(UnrecognisedMount);
          case Recognised(e, err) =>
            Unmarshal(e, err);
        }
        i := i + 1;
      }
      assert raws[..i] == raws;
      InitRequiredScopes();
    }

    /** TaskMount.Unmarshal: keep the entry and its error, unless an error is already stored. */
    method Unmarshal(e: MountEntry, err: Option<Error>)
      modifies this`mounts, this`payloadError
      ensures old(payloadError).None? ==> mounts == old(mounts) + [e] && payloadError == err
      ensures old(payloadError).Some? ==> mounts == old(mounts) && payloadError == old(payloadError)
    {
      if payloadError.None? {
        payloadError := err;
        mounts := mounts + [e];
      }
    }

    /**
     * initRequiredScopes: gather the scopes in mount order; a content that
     * fails to decode replaces the payload error and leaves the scopes unset.
     */
    method InitRequiredScopes()
      modifies this`payloadError, this`requiredScopes
      ensures Aggregate(mounts).error.Some? ==>
        payloadError == Aggregate(mounts).error && requiredScopes == old(requiredScopes)
      ensures Aggregate(mounts).error.None? ==>
        payloadError == old(payloadError) && requiredScopes == Aggregate(mounts).scopes
    {
      var scopes, err := GatherScopes(mounts);
      if err.Some? {
        payloadError := err;
        return;
      }
      requiredScopes := scopes;
    }

    /**
     * Start: report a stored payload error without mounting anything;
     * otherwise mount in list order and stop at the first failure.  The log
     * of the calls made carries the worker's state around each one.
     */
    method Start(w: Worker) returns (err: Option<Error>)
      requires w.Valid()
      modifies w`fs, w`fileCaches, w`fetches, w`trace
      ensures w.Valid()
      ensures w.CacheKept()
      ensures |old(w.trace)| <= |w.trace| && w.trace[..|old(w.trace)|] == old(w.trace)
      ensures w.Replayed(old(w.State()), w.trace[|old(w.trace)|..], w.State())
      ensures payloadError.Some? ==> err == payloadError && w.trace == old(w.trace)
      ensures payloadError.None? ==> RanInOrder(MountCall, mounts, w.trace[|old(w.trace)|..], err)
    {
      ghost var ops: seq<Op> := [];
      LogParts(old(w.trace), ops, []);
      if payloadError.Some? {
        return payloadError;
      }
      var i := 0;
      while i < |mounts|
        invariant 0 <= i <= |mounts| && |ops| == i
        invariant w.Valid() && w.CacheKept()
        invariant w.trace == old(w.trace) + ops
        invariant RanCleanly(MountCall, mounts, ops)
        invariant w.Replayed(old(w.State()), ops, w.State())
      {
        ghost var before := w.State();
        err := w.Mount(mounts[i]);
        ghost var op := Op(MountCall, mounts[i], err, before, w.State());
        LogParts(old(w.trace), ops, [op]);
        w.ReplayedSnoc(old(w.State()), ops, op);
        if err.Some? {
          StoppedAtFirstFailure(MountCall, mounts, ops, op);
          ops := ops + [op];
          LogParts(old(w.trace), ops, []);
          return;
        }
        RanCleanlySnoc(MountCall, mounts, ops, op);
        ops := ops + [op];
        i := i + 1;
      }
      LogParts(old(w.trace), ops, []);
      return None;
    }

    /**
     * Stop: unmount in list order and stop at the first failure.  A stored
     * payload error is not looked at.  The log of the calls made carries
     * the worker's state around each one.
     */
    method Stop(w: Worker) returns (err: Option<Error>)
      requires w.Valid()
      modifies w`fs, w`directoryCaches, w`trace
      ensures w.Valid()
      ensures w.fileCaches == old(w.fileCaches) && w.fetches == old(w.fetches)
      ensures |old(w.trace)| <= |w.trace| && w.trace[..|old(w.trace)|] == old(w.trace)
      ensures w.Replayed(old(w.State()), w.trace[|old(w.trace)|..], w.State())
      ensures RanInOrder(UnmountCall, mounts, w.trace[|old(w.trace)|..], err)
    {
      ghost var ops: seq<Op> := [];
      var i := 0;
      while i < |mounts|
        invariant 0 <= i <= |mounts| && |ops| == i
        invariant w.Valid()
        invariant w.trace == old(w.trace) + ops
        invariant RanCleanly(UnmountCall, mounts, ops)
        invariant w.Replayed(old(w.State()), ops, w.State())
      {
        ghost var before := w.State();
        err := w.Unmount(mounts[i]);
        ghost var op := Op(UnmountCall, mounts[i], err, before, w.State());
        LogParts(old(w.trace), ops, [op]);
        w.ReplayedSnoc(old(w.State()), ops, op);
        if err.Some? {
          StoppedAtFirstFailure(UnmountCall, mounts, ops, op);
          ops := ops + [op];
          LogParts(old(w.trace), ops, []);
          return;
        }
        RanCleanlySnoc(UnmountCall, mounts, ops, op);
        ops := ops + [op];
        i := i + 1;
      }
      LogParts(old(w.trace), ops, []);
      return None;
    }
  }
}

=== FILE: wrappers.dfy ===
/** Option and Result: the error-return shapes the mount code uses. */
module Wrappers {

  datatype Option<+T> = None | Some(value: T) {
    function GetOr(default: T): T {
      match this
      case Some(v) => v
      case None => default
    }
  }

  datatype Result<+R, +E> = Success(value: R) | Failure(error: E)
}
